=== FILE: README.md ===
# ImageGeneratorAI: enhancement stages, catalog client and model downloader in Dafny

This project models the decision and arithmetic logic of the ImageGeneratorAI
backend and proves properties of it. The backend generates images with
Stable Diffusion and offers helpers around generation.

- **Enhancement stages** (`backend/enhancement.py`). LoRA adapters are loaded into
  and unloaded from a pipeline. ControlNet types and negative embeddings are looked
  up by key. The upscaler resizes by 2 or 4. The image-to-image and inpainting
  processors letterbox an image and its mask onto a fixed-size canvas. Every stage
  catches its own exceptions.
- **Civitai catalog client** (`backend/civitai_downloader.py`). It sets the bearer
  header. It turns a search response into normalised records with defaults for
  missing fields. It derives the path a downloaded version is saved under. It
  picks the first version of the first search hit for a download by name.
- **Model download script** (`download_models.py`). It routes a model type to a
  registry and a directory. It refuses unknown types and names. It filters the
  listing by type and handles the command line.

The model is functional. An image is a size plus the provenance of its pixels
(`Imaging.Picture`). Pillow's `Image.thumbnail` sizing rule is written out in
exact integer arithmetic. A JSON response is a `JsonValue.Json` value. An HTTP
endpoint is a function from a request to `Option<Json>`. `None` stands for any
`RequestException`. Every foreign call (Pillow's resize, diffusers'
`load_lora_weights` and `unload_lora_weights`, `from_pretrained`,
`save_pretrained`) is a `Foreign.Call` parameter: it either returns or raises.
Python exceptions that the source does not catch become `Err` values. Exceptions
the source catches become `Skipped` or report constructors.

Files: `wrappers.dfy` (Option, Result, foreign calls), `json.dfy` (decoded JSON and
Python's `dict.get`, iteration and truthiness), `imaging.dfy` (pictures, the
thumbnail rule, centred paste), `enhancement.dfy`, `civitai.dfy`,
`download_models.dfy`.

The file name of a download uses `.get('name', 'model')`. The fallback "model"
applies only when the key is absent; a `null` name gives `None.safetensors`.

## Model

| member | source | states |
|---|---|---|
| Imaging.ThumbnailSize | backend/enhancement.py:149-150 | An image that already fits keeps its size. Otherwise, when the bound's aspect is at least the image's, the height is the bound's and the width is within one pixel of bh·w/h (the nearest whole number unless raised to 1); else the width is the bound's and the height is within one pixel of bw·h/w. Both sides are at least 1, and with a positive height bound at most the bound and the image. There is no size (Pillow raises) exactly when the width bound is not positive or the height bound is zero; a negative height bound keeps the width and may enlarge the image. |
| Imaging.Thumbnail | backend/enhancement.py:185 | A thumbnail is the image itself or a resampling of it, with the size the thumbnail rule gives, so it keeps the aspect ratio to within a pixel. With a positive height bound it is never larger than the bound or the image. It fails exactly where the size rule does. |
| Imaging.ThumbnailIdempotent | backend/enhancement.py:150 | With positive bounds, taking the thumbnail of a thumbnail with the same bounds gives it back unchanged. |
| Imaging.Centre | backend/enhancement.py:153-155 | The canvas has exactly the requested size and holds the pasted picture over the given background. The floor-division offsets are non-negative and keep the picture inside the canvas. The right and bottom margins equal the left and top margins, or exceed them by one. |
| Imaging.CentrePixels | backend/enhancement.py:153-155 | Each canvas pixel inside the pasted rectangle shows the pasted picture's pixel at the shifted position. Every other pixel shows the background. |
| Enhancement.LoadLora | backend/enhancement.py:17-31 | As written: the load never raises. The adapter is attached exactly when the pipeline has `load_lora_weights` and the call returns. It is attached at weight 1.0, whatever `scale` is. A failure leaves the pipeline unchanged. |
| Enhancement.LoadLoraIgnoresScale | backend/enhancement.py:18-28 | Two loads that differ only in scale give the same pipeline. The default scale 0.75 is not the weight applied. |
| Enhancement.LoadLoraIsScaledAtDefaultWeight | backend/enhancement.py:18-28 | The load as written equals the corrected load at weight 1.0, whatever scale is passed, so the lemmas about the corrected load at that weight hold for it. |
| Enhancement.LoadLoraScaled | backend/enhancement.py:18-31 | Corrected load: the same control flow, but the adapter is appended at the requested scale. The earlier adapters are kept. A failure changes nothing. |
| Enhancement.LoadLoraRemoteLikeLocal | backend/enhancement.py:23-28 | An `http` locator and a local path take branches with the same call, so they end the same way. |
| Enhancement.UnloadLora | backend/enhancement.py:34-41 | The pipeline is called only when it has `unload_lora_weights`. Without that method the pipeline is unchanged. A returning call clears the adapters. A raising call is swallowed. |
| Enhancement.LoraTeardownLeavesNoResidue | backend/enhancement.py:18-41 | Take a pipeline with no adapters and an unload method. Loading an adapter and then unloading it gives back the original pipeline, whether the load succeeded or failed. |
| Enhancement.LoadControlNet | backend/enhancement.py:47-68 | The handle is None for every type. Exactly the types missing from the six-entry table take the caught-`ValueError` path. A known type resolves to its repository. |
| Enhancement.Upscale | backend/enhancement.py:79-104 | With factor 2 or 4 and a returning resize, both sides are multiplied by the factor. Any other factor, or a raising resize, returns the input image. |
| Enhancement.UpscaleChangesIffApplied | backend/enhancement.py:91-104 | The image changes exactly when the factor is 2 or 4 and the resize returns. |
| Enhancement.LoadEmbedding | backend/enhancement.py:110-129 | The pipeline is never changed. A name is found exactly when it is one of the three table keys, and it resolves to that key's path. An unknown name only produces a not-found status. |
| Enhancement.EmbeddingCommutesWithLora | backend/enhancement.py:117-129 | Loading an embedding before or after a LoRA load gives the same pipeline, since the embedding stage never touches it. |
| Enhancement.PrepareImage | backend/enhancement.py:136-160 | With positive bounds the result is a canvas of exactly width x height with a (127,127,127) background. With a positive width and a negative height, `thumbnail` succeeds and `Image.new` raises, so the result is the image as `thumbnail` resized it, `width` pixels wide. With a non-positive width or a zero height, where `thumbnail` raises, the input image comes back. |
| Enhancement.PrepareImageNegativeHeightEnlarges | backend/enhancement.py:148-160 | A 100 x 50 image prepared for (512, -1) comes back resampled to 512 x 256, larger than it was, with no canvas. |
| Enhancement.PrepareImageLetterboxes | backend/enhancement.py:149-157 | The pasted picture is the image's thumbnail. The offsets are ((W - w) // 2, (H - h) // 2), non-negative and inside the canvas. Every pixel outside the pasted rectangle is grey. |
| Enhancement.PrepareImageStable | backend/enhancement.py:150-157 | Preparing a prepared image again with the same size keeps its size and shows the same pixel everywhere. |
| Enhancement.PrepareInpaint | backend/enhancement.py:167-193 | The image is prepared as image-to-image input. There is a mask exactly when the bounds are positive. The mask canvas then has the image canvas's size and a 0 (keep) background, and holds the mask's own thumbnail. Without a mask, no canvas was built: the image comes back as it was or as `thumbnail` resized it. |
| Enhancement.PrepareInpaintAligns | backend/enhancement.py:173-190 | The mask canvas holds the mask's thumbnail at ((W - w) // 2, (H - h) // 2) for a mask of any size. Every padded mask pixel is 0, so the border is never inpainted. A mask of the image's size is pasted at the image's offsets with the image's thumbnail size. |
| JsonValue.Lookup | backend/civitai_downloader.py:58-73 | `dict.get` on decoded JSON: the default when the key is absent. Otherwise the value of the last member with that key, as `json.loads` keeps the last duplicate. |
| JsonValue.Get | backend/civitai_downloader.py:57-73 | `.get` succeeds exactly on an object and raises AttributeError on anything else. On an object it yields the value of the key's last member, or the default when the key is absent. |
| JsonValue.Iterate | backend/civitai_downloader.py:68 | `for x in v`: a list gives its items, and strings and objects give strings only. An object gives nothing exactly when it is empty. `None`, booleans and numbers raise TypeError. |
| CivitaiDownloader.NewClient | backend/civitai_downloader.py:19-29 | The key is the argument when that is a non-empty string, else the environment's value. The only header is `Authorization: Bearer <key>`, present exactly when the key is non-empty. |
| CivitaiDownloader.ClientHeaderCarriesKey | backend/civitai_downloader.py:26-29 | Reading the key back out of the bearer header gives exactly the key the client chose. |
| CivitaiDownloader.MapAll | backend/civitai_downloader.py:56-77 | The loop builds one record per element, in order, exactly when every element converts. Otherwise it stops with the error of the first element that fails. |
| CivitaiDownloader.SearchModels | backend/civitai_downloader.py:31-83 | A request that raised (`RequestException`) yields the empty list. |
| CivitaiDownloader.SearchOneRecordPerItem | backend/civitai_downloader.py:53-79 | Take a response object whose last "items" member is a list of convertible elements. The search yields exactly one record per element, in order. |
| CivitaiDownloader.SearchWithoutItemsIsEmpty | backend/civitai_downloader.py:56 | A response object without "items" yields the empty list. |
| CivitaiDownloader.SearchRaisesOnNonObjectItem | backend/civitai_downloader.py:56-83 | For any response object whose "items" is a list with an element that is not an object, the search raises instead of yielding the empty list. Only `RequestException` is caught. |
| CivitaiDownloader.ItemDefaults | backend/civitai_downloader.py:57-75 | An item without description, stats or modelVersions gets "", download count 0, rating 0 and no versions. |
| CivitaiDownloader.ItemFields | backend/civitai_downloader.py:57-63 | A normalised record carries its item's own id, name and type (None when absent), its description ("" when absent), and the downloadCount and rating of its stats object (0 when absent). |
| CivitaiDownloader.StatsDefaults | backend/civitai_downloader.py:62-63 | For any item whose "stats" is an object without downloadCount or rating, a normalised record has both at 0. |
| CivitaiDownloader.VersionsKeepOrder | backend/civitai_downloader.py:68-75 | Any item whose "stats" is an object and whose "modelVersions" is a list of objects is normalised. Its versions keep their order, and each carries its id, name and downloadUrl (None when absent) and its files ([] when absent). |
| CivitaiDownloader.GetTrendingModels | backend/civitai_downloader.py:149-151 | The request sent carries the query "*", the type "Checkpoint", the sort "Highest Rated", the caller's limit and the client's headers. A raising request yields the empty list; otherwise the records are that response's normalisation. |
| CivitaiDownloader.Lower | backend/civitai_downloader.py:114 | The type folder name keeps its length and contains no ASCII capital. Each capital becomes its own small letter, and every other character stays in place. |
| CivitaiDownloader.LowerIdempotent | backend/civitai_downloader.py:114 | Lower-casing twice equals lower-casing once, so a lower-case type names its own folder. |
| CivitaiDownloader.DownloadModel | backend/civitai_downloader.py:85-147 | A raising details request yields None with no effect. Otherwise the type folder is created first. Details that are not an object raise AttributeError. A falsy downloadUrl yields None. A path is returned exactly when the URL is truthy and the transfer completes; it is output_dir / lower(type) / stem.safetensors, with stem from `.get('name', 'model')`, and that file was completely written. A file that cannot be opened raises OSError after the folder is made. A refused transfer yields None with only the folder made, and an interrupted one leaves a partial file and yields None. A completed one makes the folder and writes the file completely. A complete file is written exactly when a path is returned. |
| CivitaiDownloader.FileNameDefaults | backend/civitai_downloader.py:123-124 | For any version object whose download completes, an absent "name" gives the file `model.safetensors` and a null one gives `None.safetensors`. |
| CivitaiDownloader.DownloadByName | backend/civitai_downloader.py:153-190 | The search uses limit 1. No hit, or a first hit without versions, yields None with no effect. Otherwise the result is the download of versions[0] of models[0] with the same directory and type. A search that raises propagates. |
| CivitaiDownloader.DownloadByNameSavesInTypeFolder | backend/civitai_downloader.py:153-190 | A path `download_by_name` returns is output_dir / lower(type) / one file, and that file was completely written. |
| CivitaiDownloader.DownloadByNameNeedsAVersion | backend/civitai_downloader.py:171-180 | For any search response object, an empty "items" list, or a first item that normalises with no versions, yields None with no details request and no effect on disk. |
| DownloadModels.Find | download_models.py:115-116 | The entry found for a registered name is in the registry and carries that name. |
| DownloadModels.RouteOf | download_models.py:96-105 | "model", "vae" and "controlnet" go to their own registry and directory, and "upscaler" to the upscaler path. Every other type has no route. |
| DownloadModels.DownloadDiffuser | download_models.py:109-136 | An unregistered name stops before any download. A save happens exactly when the name is registered and both foreign calls return. It goes to dir / name with the registry's model id, at float16 exactly on CUDA. |
| DownloadModels.DownloadUpscaler | download_models.py:138-144 | It never downloads. An unknown name is reported exactly when the name is not in the upscaler registry. |
| DownloadModels.DownloadModel | download_models.py:87-107 | The unsupported branch is taken exactly for types without a route. Only the three diffuser types ever reach Hugging Face. |
| DownloadModels.DownloadDispatches | download_models.py:96-132 | Each diffuser type downloads from its own registry into its own directory. A saved model lies at that directory / name. |
| DownloadModels.UnknownNameDownloadsNothing | download_models.py:111-113 | A name missing from the chosen registry downloads nothing, whatever the foreign calls would do. |
| DownloadModels.UpscalerNeverDownloads | download_models.py:140-144 | The upscaler type downloads nothing. It reports "not implemented" exactly for registered names. |
| DownloadModels.SavedDirectoryExists | download_models.py:17-28 | A model is saved (or its save attempted) at directory / name, where the directory is one the script created when it was loaded. |
| DownloadModels.Select | download_models.py:150-168 | The selected sections are exactly those whose type matches, or all of them for "all". "all" keeps every section and a type matching none selects nothing. |
| DownloadModels.ListAvailableModels | download_models.py:146-170 | A section is shown exactly when the type is "all" or that section's type. |
| DownloadModels.ListingSelects | download_models.py:150-168 | "all" lists the four sections in order. Each section type lists its section alone. Any other type lists nothing. |
| DownloadModels.ParseArgs | download_models.py:217-234 | The arguments parse exactly when the command and the type are among the choices. The type defaults to "model". |
| DownloadModels.Main | download_models.py:215-248 | "download" without a non-empty --model does no download. "download" with one calls the downloader with that name and the parsed type, and a download happens only then. "list" lists the sections of the type, with "model" read as "all". "list-downloaded" runs the directory listing. |
| DownloadModels.CliTypesWithoutRoute | download_models.py:229 | "lora" and "embedding" pass the command line but reach the unsupported branch, so nothing is downloaded. |
| DownloadModels.ParsedDownloadReachesDownloader | download_models.py:227-242 | Every "download" the parser accepts with a non-empty name calls the downloader with the parsed type, "model" by default. Exactly "lora" and "embedding" end in the unsupported branch. |
| DownloadModels.ListDefaultShowsAll | download_models.py:245 | `list` with no type, or with type "model", shows every section. |
| RegistryAgreement.ControlNetRegistriesAgree | backend/enhancement.py:47-54 | Each ControlNet in the download script's registry (download_models.py:52-65) is a type of the enhancement table with the same repository, so the enhancement stage does not reject it. |

## Left out

- Network and file I/O. HTTP requests are function parameters. The streamed chunk loop becomes one `Transfer` outcome: refused, the file could not be opened, interrupted after the file was opened, or complete. `mkdir` is recorded as an effect and assumed to succeed. The download-progress percentage is a float used only for logging and is not modelled.
- DownloadModel: `int(response.headers.get('content-length', 0))` can raise `ValueError` on a malformed header. That is not modelled.
- Logging and printed output. `list_available_models` returns the sections it would print.
- `list_downloaded_models` scans directories and is not modelled. `main` only records that it was chosen.
- Imaging.ThumbnailSize: Pillow compares rounding distances in floating point; the model compares them exactly and keeps the floor on an exact tie. Where floats break a tie the other way the sizes differ by one pixel: by Pillow's formula a 2 x 4 image bounded by (2, 3) becomes 2 x 3, and in the model 1 x 3. A zero height bound (division by zero) and a width bound of zero or less (a resize to a side below 1) are modelled as Pillow raising. Pillow's `draft`/`reducing_gap` step does not change the final size and is not modelled.
- Pixel values and Lanczos resampling are not modelled: a resampled picture's pixels are opaque. Pasting an image of another mode onto the `L` mask canvas is not modelled.
- Pillow's resize inside `thumbnail` is assumed not to raise once a size has been computed. The upscaler's resize is a `Foreign.Call`.
- Enhancement.UnloadLora: diffusers' `unload_lora_weights` is assumed to clear every adapter. A raising foreign call is assumed to leave the pipeline unchanged. The same holds for `load_lora_weights` in Enhancement.LoadLora.
- `Upscaler.__init__` and `ModelDownloader.__init__` choose CUDA or CPU. That choice is a `cuda: bool` parameter. The unused `upscaler_models` cache is left out.
- CivitaiDownloader.Lower: only ASCII letters are lowered; Python's `str.lower` also lowers other Unicode letters.
- CivitaiDownloader.DownloadModel: the lower-cased type and the file name are each taken as a single path component. With `pathlib`, an empty type adds no folder, so the file lands in the output directory itself; a type containing "/" adds several levels, and an absolute type replaces the output directory. The same holds for CivitaiDownloader.DownloadByNameSavesInTypeFolder. The file name comes from the catalog, and `pathlib` splits a name that contains "/" (so "../../x" lands outside the type folder), and an absolute name replaces the whole path. None of this is modelled, so the model's paths always end in the type folder and one file. An `OSError` raised by `open` is modelled (it escapes, since only `RequestException` is caught); one raised by `mkdir` or by a write in the middle of the transfer is not. `FileName` renders only string and null stems; `str()` of a number, list or object is not rendered.
- Enhancement.PrepareImage: `thumbnail` resizes the caller's image object in place. The model returns what the function returns; the caller's object afterwards, `Imaging.Thumbnail`'s picture when that exists, is not returned alongside.
- Enhancement.PrepareInpaint: likewise the caller's image and mask objects are resized in place by `thumbnail`, even on the path that returns no mask (a negative height); the model does not return them.
- JSON numbers are kept as integers and reals and are only passed through.
- `backend/main.py` (FastAPI routes with a placeholder generate endpoint), `download_loras_and_embeddings.py` (an interactive script repeating the download-by-name pattern), the React components and the build configuration.

## Findings

| source | as written | input that shows it | evidently intended | confidence | as-written member | corrected member |
|---|---|---|---|---|---|---|
| backend/enhancement.py:18-28 | `load_lora` takes `scale` (default 0.75) and never passes it on, so the adapter is applied at diffusers' default weight 1.0 | any successful load with `scale = 0.75`: the attached adapter's weight is 1.0 | the adapter is applied at the requested scale | medium, not executed | Enhancement.LoadLora (with Enhancement.LoadLoraIgnoresScale) | Enhancement.LoadLoraScaled |

=== FILE: civitai.dfy ===
/** The Civitai catalog client: the authorization header, the normalisation of
    search responses, the derivation of download paths, and the choice of the
    version `download_by_name` fetches. HTTP is a parameter: a request maps to
    the decoded body of its response, or to None when `requests` raised. */
module CivitaiDownloader {
  import opened Wrappers
  import opened JsonValue

  const SearchSort := "Highest Rated"
  const DefaultModelType := "Checkpoint"
  const TrendingQuery := "*"
  const FallbackStem := "model"
  const Extension := ".safetensors"

  type Headers = map<string, string>

  datatype Client = Client(apiKey: Option<string>, headers: Headers)

  /** `CivitaiDownloader.__init__`: `api_key or os.getenv("CIVITAI_API_KEY")`, and a
      bearer header exactly when that key is a non-empty string. */
  function NewClient(apiKey: Option<string>, environment: Option<string>): (c: Client)
    ensures apiKey.Some? && apiKey.value != "" ==> c.apiKey == apiKey
    ensures !(apiKey.Some? && apiKey.value != "") ==> c.apiKey == environment
    ensures "Authorization" in c.headers <==> c.apiKey.Some? && c.apiKey.value != ""
    ensures "Authorization" in c.headers ==> c.headers["Authorization"] == "Bearer " + c.apiKey.value
    ensures c.headers.Keys <= {"Authorization"}
  {
    var key := if apiKey.Some? && apiKey.value != "" then apiKey else environment;
    if key.Some? && key.value != "" then Client(key, map["Authorization" := "Bearer " + key.value])
    else Client(key, map[])
  }

  /** The key a server reads from a bearer `Authorization` header; None for any
      other scheme. */
  function BearerKey(header: string): Option<string> {
    if |header| >= 7 && header[..7] == "Bearer " then Some(header[7..]) else None
  }

  /** The client's header hands the server back exactly the key the client chose. */
  lemma ClientHeaderCarriesKey(apiKey: Option<string>, environment: Option<string>)
    ensures var c := NewClient(apiKey, environment);
      "Authorization" in c.headers ==> BearerKey(c.headers["Authorization"]) == c.apiKey
  {
  }

  // ---------------------------------------------------------------------------
  // Requests

  datatype SearchParams = SearchParams(query: string, modelType: string, limit: int, sort: string)

  datatype Request =
      /** GET {BaseUrl}/models with the search parameters */
    | SearchRequest(params: SearchParams, headers: Headers)
      /** GET {BaseUrl}/models/{modelId}/versions/{versionId} */
    | VersionRequest(modelId: Json, versionId: Json, headers: Headers)
      /** the streamed GET of a version's download URL */
    | FileRequest(url: Json, headers: Headers)

  /** The catalog's JSON endpoints: the decoded body, or None when `requests`
      raised (no connection, an error status, a body that is not JSON). */
  type Api = Request -> Option<Json>

  /** How a streamed download ends: refused before the body (a
      `RequestException`), the target file could not be opened for writing
      (`open` raises OSError), cut off by a `RequestException` after the file
      was opened, or complete. */
  datatype Transfer = Refused | Unopenable | Interrupted | Completed

  type Stream = Request -> Transfer

  // ---------------------------------------------------------------------------
  // Search

  datatype VersionInfo = VersionInfo(id: Json, name: Json, downloadUrl: Json, files: Json)

  datatype ModelInfo = ModelInfo(
    id: Json, name: Json, description: Json, modelType: Json,
    downloadCount: Json, rating: Json, versions: seq<VersionInfo>)

  /** Applies `f` to each element in order and stops at the first error, as a
      Python loop stops at the first exception. */
  function MapAll<A, B(==), E(==)>(f: A -> Result<B, E>, xs: seq<A>): (r: Result<seq<B>, E>)
    ensures r.Ok? <==> forall i :: 0 <= i < |xs| ==> f(xs[i]).Ok?
    ensures r.Ok? ==> |r.value| == |xs| && forall i :: 0 <= i < |xs| ==> f(xs[i]) == Ok(r.value[i])
    ensures r.Err? ==> FailsFirstAt(f, xs, r.error)
  {
    if |xs| == 0 then Ok([])
    else
      match f(xs[0])
      case Err(e) =>
        assert f(xs[0]) == Err(e);
        Err(e)
      case Ok(y) =>
        var rest := MapAll(f, xs[1..]);
        assert forall i :: 1 <= i < |xs| ==> xs[1..][i - 1] == xs[i];
        match rest
        case Err(e) =>
          FailureShifts(f, xs, e);
          Err(e)
        case Ok(ys) => Ok([y] + ys)
  }

  /** Some element of `xs` fails with `e` and every element before it succeeds. */
  ghost predicate FailsFirstAt<A, B, E>(f: A -> Result<B, E>, xs: seq<A>, e: E) {
    exists i :: 0 <= i < |xs| && f(xs[i]) == Err(e) && forall j :: 0 <= j < i ==> f(xs[j]).Ok?
  }

  lemma FailureShifts<A, B, E>(f: A -> Result<B, E>, xs: seq<A>, e: E)
    requires |xs| > 0 && f(xs[0]).Ok?
    requires FailsFirstAt(f, xs[1..], e)
    ensures FailsFirstAt(f, xs, e)
  {
    var i :| 0 <= i < |xs| - 1 && f(xs[1..][i]) == Err(e) && forall j :: 0 <= j < i ==> f(xs[1..][j]).Ok?;
    assert f(xs[i + 1]) == Err(e);
    forall j | 0 <= j < i + 1
      ensures f(xs[j]).Ok?
    {
      if j > 0 {
        assert xs[j] == xs[1..][j - 1];
      }
    }
  }

  /** One element of an item's "modelVersions", with "files" defaulting to []. */
  function NormaliseVersion(version: Json): Result<VersionInfo, PyError>
  {
    var id :- Get(version, "id", Null);
    var name :- Get(version, "name", Null);
    var url :- Get(version, "downloadUrl", Null);
    var files :- Get(version, "files", Arr([]));
    Ok(VersionInfo(id, name, url, files))
  }

  /** One element of the response's "items": description defaults to "", both
      statistics to 0, and "modelVersions" to []. */
  function NormaliseItem(item: Json): Result<ModelInfo, PyError>
  {
    var id :- Get(item, "id", Null);
    var name :- Get(item, "name", Null);
    var description :- Get(item, "description", Str(""));
    var modelType :- Get(item, "type", Null);
    var stats :- Get(item, "stats", Obj([]));
    var downloads :- Get(stats, "downloadCount", Int(0));
    var rating :- Get(stats, "rating", Int(0));
    var listed :- Get(item, "modelVersions", Arr([]));
    var elements :- Iterate(listed);
    var versions :- MapAll(NormaliseVersion, elements);
    Ok(ModelInfo(id, name, description, modelType, downloads, rating, versions))
  }

  /** The records `search_models` builds from a response: [] when the request
      failed; otherwise one record per element of "items". A body of the wrong
      shape raises, since only `RequestException` is caught. */
  function NormaliseResponse(response: Option<Json>): Result<seq<ModelInfo>, PyError>
  {
    match response
    case None => Ok([])
    case Some(data) =>
      var items :- Get(data, "items", Arr([]));
      var elements :- Iterate(items);
      MapAll(NormaliseItem, elements)
  }

  function SearchRequestFor(c: Client, query: string, modelType: string, limit: int): Request {
    SearchRequest(SearchParams(query, modelType, limit, SearchSort), c.headers)
  }

  /** `CivitaiDownloader.search_models`. */
  function SearchModels(c: Client, query: string, modelType: string := DefaultModelType, limit: int := 10, api: Api): (r: Result<seq<ModelInfo>, PyError>)
    ensures api(SearchRequestFor(c, query, modelType, limit)).None? ==> r == Ok([])
  {
    NormaliseResponse(api(SearchRequestFor(c, query, modelType, limit)))
  }

  /** A well-formed response yields one record per element of "items", in order. */
  lemma SearchOneRecordPerItem(c: Client, query: string, modelType: string, limit: int, api: Api,
                               before: seq<(string, Json)>, items: seq<Json>, after: seq<(string, Json)>)
    requires api(SearchRequestFor(c, query, modelType, limit)) == Some(Obj(before + [("items", Arr(items))] + after))
    requires forall k :: 0 <= k < |after| ==> after[k].0 != "items"
    requires forall i :: 0 <= i < |items| ==> NormaliseItem(items[i]).Ok?
    ensures var r := SearchModels(c, query, modelType, limit, api);
      r.Ok? && |r.value| == |items| &&
      forall i :: 0 <= i < |items| ==> Ok(r.value[i]) == NormaliseItem(items[i])
  {
    var members := before + [("items", Arr(items))] + after;
    assert members[|before|] == ("items", Arr(items));
    assert HasKey(members, "items");
    assert forall j :: |before| < j < |members| ==> members[j] == after[j - |before| - 1];
  }

  /** A response object without "items" yields no records. */
  lemma SearchWithoutItemsIsEmpty(c: Client, query: string, modelType: string, limit: int, api: Api,
                                  members: seq<(string, Json)>)
    requires api(SearchRequestFor(c, query, modelType, limit)) == Some(Obj(members))
    requires forall k :: 0 <= k < |members| ==> members[k].0 != "items"
    ensures SearchModels(c, query, modelType, limit, api) == Ok([])
  {
  }

  /** An element of "items" that is not an object makes the search raise rather
      than return []. */
  lemma SearchRaisesOnNonObjectItem(c: Client, query: string, modelType: string, limit: int, api: Api,
                                    members: seq<(string, Json)>, items: seq<Json>, k: nat)
    requires api(SearchRequestFor(c, query, modelType, limit)) == Some(Obj(members))
    requires Lookup(members, "items", Arr([])) == Arr(items)
    requires k < |items| && !items[k].Obj?
    ensures SearchModels(c, query, modelType, limit, api).Err?
  {
    assert NormaliseItem(items[k]).Err?;
  }

  /** The defaults an item object gets for missing fields. */
  lemma ItemDefaults(members: seq<(string, Json)>)
    requires forall k :: 0 <= k < |members| ==> members[k].0 !in {"description", "stats", "modelVersions"}
    ensures var r := NormaliseItem(Obj(members));
      && r.Ok?
      && r.value.description == Str("")
      && r.value.downloadCount == Int(0)
      && r.value.rating == Int(0)
      && r.value.versions == []
  {
    assert !HasKey(members, "description");
    assert !HasKey(members, "stats");
    assert !HasKey(members, "modelVersions");
  }

  /** A normalised record carries its item's own fields: "id", "name" and "type"
      (None when absent), "description" ("" when absent), and the two
      statistics of its "stats" object (0 when absent). */
  lemma ItemFields(members: seq<(string, Json)>, stats: seq<(string, Json)>)
    requires Lookup(members, "stats", Obj([])) == Obj(stats)
    ensures var r := NormaliseItem(Obj(members));
      r.Ok? ==>
        && r.value.id == Lookup(members, "id", Null)
        && r.value.name == Lookup(members, "name", Null)
        && r.value.modelType == Lookup(members, "type", Null)
        && r.value.description == Lookup(members, "description", Str(""))
        && r.value.downloadCount == Lookup(stats, "downloadCount", Int(0))
        && r.value.rating == Lookup(stats, "rating", Int(0))
  {
  }

  /** Statistics missing from an item's "stats" object default to 0. */
  lemma StatsDefaults(members: seq<(string, Json)>, stats: seq<(string, Json)>)
    requires Lookup(members, "stats", Obj([])) == Obj(stats)
    requires forall k :: 0 <= k < |stats| ==> stats[k].0 !in {"downloadCount", "rating"}
    ensures var r := NormaliseItem(Obj(members));
      r.Ok? ==> r.value.downloadCount == Int(0) && r.value.rating == Int(0)
  {
    assert !HasKey(stats, "downloadCount");
    assert !HasKey(stats, "rating");
  }

  /** An item whose "stats" is an object and whose "modelVersions" is a list of
      objects is normalised, and its versions keep their order and their four
      fields, "files" defaulting to []. */
  lemma VersionsKeepOrder(members: seq<(string, Json)>, versions: seq<Json>)
    requires Lookup(members, "stats", Obj([])).Obj?
    requires Lookup(members, "modelVersions", Arr([])) == Arr(versions)
    requires forall i :: 0 <= i < |versions| ==> versions[i].Obj?
    ensures var r := NormaliseItem(Obj(members));
      && r.Ok? && |r.value.versions| == |versions|
      && forall i :: 0 <= i < |versions| ==>
           && r.value.versions[i].id == Lookup(versions[i].members, "id", Null)
           && r.value.versions[i].name == Lookup(versions[i].members, "name", Null)
           && r.value.versions[i].downloadUrl == Lookup(versions[i].members, "downloadUrl", Null)
           && r.value.versions[i].files == Lookup(versions[i].members, "files", Arr([]))
  {
    assert forall i :: 0 <= i < |versions| ==> NormaliseVersion(versions[i]).Ok?;
  }

  /** `CivitaiDownloader.get_trending_models`: a search for "*" among checkpoints,
      by rating, with the caller's limit and the client's headers. */
  function GetTrendingModels(c: Client, limit: int := 20, api: Api): (r: Result<seq<ModelInfo>, PyError>)
    ensures var request := SearchRequest(SearchParams("*", "Checkpoint", limit, "Highest Rated"), c.headers);
      && (api(request).None? ==> r == Ok([]))
      && r == NormaliseResponse(api(request))
  {
    SearchModels(c, TrendingQuery, DefaultModelType, limit, api)
  }

  // ---------------------------------------------------------------------------
  // Download

  /** A component of a file-system path; a downloaded file's name is its stem
      rendered by Python's `str`, followed by ".safetensors". */
  datatype Segment = Folder(name: string) | SafetensorsFile(stem: Json)

  type Path = seq<Segment>

  /** What a download does to the file system. */
  datatype Effect = MadeDir(dir: Path) | WroteFile(file: Path, complete: bool)

  datatype Download = Download(result: Result<Option<Path>, PyError>, effects: seq<Effect>)

  /** The name of a downloaded file when its stem is a string or null. */
  function FileName(stem: Json): Option<string> {
    match stem
    case Str(s) => Some(s + Extension)
    case Null => Some("None" + Extension)
    case _ => None
  }

  predicate IsUpper(ch: char) {
    'A' <= ch <= 'Z'
  }

  /** ASCII `str.lower()`: no capital letter survives, a capital becomes a small
      letter, and every other character is kept in place. */
  function Lower(s: string): (r: string)
    ensures |r| == |s|
    ensures forall i :: 0 <= i < |r| ==> !IsUpper(r[i])
    ensures forall i :: 0 <= i < |s| && !IsUpper(s[i]) ==> r[i] == s[i]
    ensures forall i :: 0 <= i < |s| && IsUpper(s[i]) ==> 'a' <= r[i] <= 'z'
    ensures forall i :: 0 <= i < |s| && IsUpper(s[i]) ==> r[i] as int - s[i] as int == 'a' as int - 'A' as int
  {
    seq(|s|, i requires 0 <= i < |s| => if IsUpper(s[i]) then s[i] - 'A' + 'a' else s[i])
  }

  /** Lower-casing twice is lower-casing once, so a type given in lower case
      already names its own folder. */
  lemma LowerIdempotent(s: string)
    ensures Lower(Lower(s)) == Lower(s)
  {
  }

  function TypeDir(outputDir: Path, modelType: string): Path {
    outputDir + [Folder(Lower(modelType))]
  }

  /** The decoded details of a version, or None when that request raised. */
  function Details(c: Client, modelId: Json, versionId: Json, api: Api): Option<Json> {
    api(VersionRequest(modelId, versionId, c.headers))
  }

  /** `type_dir / f"{version_data.get('name', 'model')}.safetensors"`. */
  function SavedAs(outputDir: Path, modelType: string, members: seq<(string, Json)>): Path {
    TypeDir(outputDir, modelType) + [SafetensorsFile(Lookup(members, "name", Str(FallbackStem)))]
  }

  /** The details are an object with a truthy "downloadUrl", and streaming that
      URL ends in `t`. */
  predicate Streams(c: Client, data: Json, stream: Stream, t: Transfer) {
    && data.Obj?
    && Truthy(Lookup(data.members, "downloadUrl", Null))
    && stream(FileRequest(Lookup(data.members, "downloadUrl", Null), c.headers)) == t
  }

  /** `CivitaiDownloader.download_model`: fetches the version's details, creates
      the type folder, and streams the version's file into it. Only
      `RequestException` is caught: details that are not an object raise
      AttributeError, and a file that cannot be opened raises OSError. */
  function DownloadModel(c: Client, modelId: Json, versionId: Json, outputDir: Path,
                         modelType: string := DefaultModelType, api: Api, stream: Stream): (d: Download)
    ensures Details(c, modelId, versionId, api).None? ==> d == Download(Ok(None), [])
    ensures Details(c, modelId, versionId, api).Some? ==>
      |d.effects| > 0 && d.effects[0] == MadeDir(TypeDir(outputDir, modelType))
    ensures var details := Details(c, modelId, versionId, api);
      details.Some? && !details.value.Obj? ==>
        d == Download(Err(AttributeError), [MadeDir(TypeDir(outputDir, modelType))])
    ensures var details := Details(c, modelId, versionId, api);
      details.Some? && details.value.Obj? && !Truthy(Lookup(details.value.members, "downloadUrl", Null)) ==>
        d == Download(Ok(None), [MadeDir(TypeDir(outputDir, modelType))])
    ensures var details := Details(c, modelId, versionId, api);
      d.result.Ok? && d.result.value.Some? <==> details.Some? && Streams(c, details.value, stream, Completed)
    ensures var details := Details(c, modelId, versionId, api);
      d.result.Ok? && d.result.value.Some? ==>
        d.result.value.value == SavedAs(outputDir, modelType, details.value.members) &&
        WroteFile(d.result.value.value, true) in d.effects
    ensures var details := Details(c, modelId, versionId, api);
      d.result == Err(OSError) <==> details.Some? && Streams(c, details.value, stream, Unopenable)
    ensures var details := Details(c, modelId, versionId, api);
      details.Some? && Streams(c, details.value, stream, Refused) ==>
        d == Download(Ok(None), [MadeDir(TypeDir(outputDir, modelType))])
    ensures var details := Details(c, modelId, versionId, api);
      details.Some? && Streams(c, details.value, stream, Unopenable) ==>
        d == Download(Err(OSError), [MadeDir(TypeDir(outputDir, modelType))])
    ensures var details := Details(c, modelId, versionId, api);
      details.Some? && Streams(c, details.value, stream, Completed) ==>
        var file := SavedAs(outputDir, modelType, details.value.members);
        d == Download(Ok(Some(file)), [MadeDir(TypeDir(outputDir, modelType)), WroteFile(file, true)])
    ensures var details := Details(c, modelId, versionId, api);
      details.Some? && Streams(c, details.value, stream, Interrupted) ==>
        d == Download(Ok(None), [MadeDir(TypeDir(outputDir, modelType)),
                                 WroteFile(SavedAs(outputDir, modelType, details.value.members), false)])
    ensures forall e | e in d.effects && e.WroteFile? ::
      e.complete <==> d.result.Ok? && d.result.value.Some?
  {
    match Details(c, modelId, versionId, api)
    case None => Download(Ok(None), [])
    case Some(data) =>
      var made := [MadeDir(TypeDir(outputDir, modelType))];
      match Get(data, "downloadUrl", Null)
      case Err(e) => Download(Err(e), made)
      case Ok(url) =>
        if !Truthy(url) then Download(Ok(None), made)
        else
          var file := SavedAs(outputDir, modelType, data.members);
          match stream(FileRequest(url, c.headers))
          case Refused => Download(Ok(None), made)
          case Unopenable => Download(Err(OSError), made)
          case Interrupted => Download(Ok(None), made + [WroteFile(file, false)])
          case Completed => Download(Ok(Some(file)), made + [WroteFile(file, true)])
  }

  /** A version whose "name" is absent is saved as "model.safetensors"; one whose
      "name" is null is saved as "None.safetensors", since the default of
      `.get('name', 'model')` applies only to an absent key. */
  lemma FileNameDefaults(c: Client, modelId: Json, versionId: Json, outputDir: Path, modelType: string,
                         api: Api, stream: Stream, members: seq<(string, Json)>)
    requires api(VersionRequest(modelId, versionId, c.headers)) == Some(Obj(members))
    requires Streams(c, Obj(members), stream, Completed)
    ensures var d := DownloadModel(c, modelId, versionId, outputDir, modelType, api, stream);
      && d.result.Ok? && d.result.value.Some?
      && (!HasKey(members, "name") ==> FileName(Last(d.result.value.value).stem) == Some("model.safetensors"))
      && (Lookup(members, "name", Str(FallbackStem)) == Null ==>
            FileName(Last(d.result.value.value).stem) == Some("None.safetensors"))
  {
    assert FallbackStem + Extension == "model.safetensors";
    assert "None" + Extension == "None.safetensors";
  }

  /** `CivitaiDownloader.download_by_name`: searches with limit 1 and downloads the
      first version of the first model found, into the same directory and type. */
  function DownloadByName(c: Client, name: string, outputDir: Path, modelType: string := DefaultModelType,
                          api: Api, stream: Stream): (d: Download)
    ensures var found := SearchModels(c, name, modelType, 1, api);
      && (found.Err? ==> d == Download(Err(found.error), []))
      && (found.Ok? && (found.value == [] || found.value[0].versions == []) ==> d == Download(Ok(None), []))
      && (found.Ok? && found.value != [] && found.value[0].versions != [] ==>
            d == DownloadModel(c, found.value[0].id, found.value[0].versions[0].id, outputDir, modelType, api, stream))
  {
    match SearchModels(c, name, modelType, 1, api)
    case Err(e) => Download(Err(e), [])
    case Ok(models) =>
      if |models| == 0 then Download(Ok(None), [])
      else if |models[0].versions| == 0 then Download(Ok(None), [])
      else DownloadModel(c, models[0].id, models[0].versions[0].id, outputDir, modelType, api, stream)
  }

  /** A file `download_by_name` reports lies in the folder named after the
      lower-cased type, directly under the output directory, and was written
      completely. */
  lemma DownloadByNameSavesInTypeFolder(c: Client, name: string, outputDir: Path, modelType: string,
                                        api: Api, stream: Stream)
    ensures var d := DownloadByName(c, name, outputDir, modelType, api, stream);
      d.result.Ok? && d.result.value.Some? ==>
        && |d.result.value.value| == |outputDir| + 2
        && d.result.value.value[..|outputDir| + 1] == outputDir + [Folder(Lower(modelType))]
        && Last(d.result.value.value).SafetensorsFile?
        && WroteFile(d.result.value.value, true) in d.effects
  {
  }

  /** A search response whose "items" is empty, or whose first item has no
      versions, touches neither the details endpoint nor the disk. */
  lemma DownloadByNameNeedsAVersion(c: Client, name: string, outputDir: Path, modelType: string,
                                    api: Api, stream: Stream, members: seq<(string, Json)>, items: seq<Json>)
    requires api(SearchRequestFor(c, name, modelType, 1)) == Some(Obj(members))
    requires Lookup(members, "items", Arr([])) == Arr(items)
    ensures items == [] ==>
      DownloadByName(c, name, outputDir, modelType, api, stream) == Download(Ok(None), [])
    ensures && |items| > 0
            && (forall i :: 0 <= i < |items| ==> NormaliseItem(items[i]).Ok?)
            && NormaliseItem(items[0]).value.versions == [] ==>
      DownloadByName(c, name, outputDir, modelType, api, stream) == Download(Ok(None), [])
  {
  }
}

=== FILE: download_models.dfy ===
/** The model download script: the static registries, the routing of a model
    type to a registry and a directory, the listing filter, and the command line.
    Hugging Face and the disk are parameters: `from_pretrained` and
    `save_pretrained` either return or raise. */
module DownloadModels {
  import opened Wrappers
  import opened Foreign

  datatype Entry = Entry(name: string, modelId: string, description: string)

  /** A registry in its declaration order, which is also its listing order. */
  type Registry = seq<Entry>

  const AvailableModels: Registry := [
    Entry("stable-diffusion-v1-5", "runwayml/stable-diffusion-v1-5", "Stable Diffusion v1.5 - Modelo est\U{E1}ndar"),
    Entry("stable-diffusion-v2-1", "stabilityai/stable-diffusion-2-1", "Stable Diffusion v2.1 - Mayor calidad")
  ]

  const AvailableVaes: Registry := [
    Entry("vae-ft-mse-840000", "stabilityai/sd-vae-ft-mse-840000", "VAE MSE - Mejor preservaci\U{F3}n de detalles")
  ]

  const AvailableControlNets: Registry := [
    Entry("openpose", "lllyasviel/control_v11p_openpose", "ControlNet OpenPose"),
    Entry("depth", "lllyasviel/control_v11f1p_sd15_depth", "ControlNet Depth"),
    Entry("canny", "lllyasviel/control_v11p_canny", "ControlNet Canny Edges")
  ]

  const AvailableUpscalers: Registry := [
    Entry("RealESRGAN_x2", "https://github.com/xinntao/Real-ESRGAN/releases/download/v0.2.1/RealESRGAN_x2plus.pth",
          "Real-ESRGAN x2 Upscaler"),
    Entry("RealESRGAN_x4", "https://github.com/xinntao/Real-ESRGAN/releases/download/v0.2.1/RealESRGAN_x4plus.pth",
          "Real-ESRGAN x4 Upscaler")
  ]

  /** Directories, as paths relative to the script's directory. */
  type Path = seq<string>

  const ModelsDir: Path := ["models"]
  const VaesDir: Path := ["vaes"]
  const LorasDir: Path := ["loras"]
  const EmbeddingsDir: Path := ["embeddings"]
  const ControlNetsDir: Path := ["controlnets"]
  const UpscalersDir: Path := ["upscalers"]

  /** The directories the script creates when it is loaded, before `main` runs. */
  const CreatedOnLoad: seq<Path> := [ModelsDir, VaesDir, LorasDir, EmbeddingsDir, ControlNetsDir, UpscalersDir]

  predicate Registered(registry: Registry, name: string) {
    exists i :: 0 <= i < |registry| && registry[i].name == name
  }

  /** `registry[name]`: the entry of a registered name. */
  function Find(registry: Registry, name: string): (e: Entry)
    requires Registered(registry, name)
    ensures e in registry && e.name == name
  {
    if registry[0].name == name then registry[0]
    else
      assert Registered(registry[1..], name) by {
        var i :| 0 <= i < |registry| && registry[i].name == name;
        assert registry[1..][i - 1] == registry[i];
      }
      Find(registry[1..], name)
  }

  // ---------------------------------------------------------------------------
  // Downloading

  /** Where a model type is routed. */
  datatype Route = Diffusers(registry: Registry, dir: Path) | Upscalers

  /** The `if`/`elif` chain of `ModelDownloader.download_model`. */
  function RouteOf(modelType: string): (r: Option<Route>)
    ensures r.None? <==> modelType !in {"model", "vae", "controlnet", "upscaler"}
    ensures modelType == "model" ==> r == Some(Diffusers(AvailableModels, ModelsDir))
    ensures modelType == "vae" ==> r == Some(Diffusers(AvailableVaes, VaesDir))
    ensures modelType == "controlnet" ==> r == Some(Diffusers(AvailableControlNets, ControlNetsDir))
    ensures modelType == "upscaler" ==> r == Some(Upscalers)
  {
    if modelType == "model" then Some(Diffusers(AvailableModels, ModelsDir))
    else if modelType == "vae" then Some(Diffusers(AvailableVaes, VaesDir))
    else if modelType == "controlnet" then Some(Diffusers(AvailableControlNets, ControlNetsDir))
    else if modelType == "upscaler" then Some(Upscalers)
    else None
  }

  /** The numeric precision `from_pretrained` is asked for. */
  datatype Precision = Float16 | Float32

  /** `torch.float16 if self.device == "cuda" else torch.float32`. */
  function PrecisionFor(cuda: bool): Precision {
    if cuda then Float16 else Float32
  }

  /** How one download request ended; every branch is a logged message, none raises. */
  datatype Report =
    | UnsupportedType(modelType: string)
    | UnknownName(name: string)
    | UpscalerNotImplemented(name: string)
    | FetchFailed(modelId: string, precision: Precision)
    | SaveFailed(modelId: string, path: Path)
    | Saved(modelId: string, precision: Precision, path: Path)

  /** Whether the request reached Hugging Face (`from_pretrained` was called). */
  predicate Fetched(r: Report) {
    r.FetchFailed? || r.SaveFailed? || r.Saved?
  }

  /** `ModelDownloader._download_diffuser_model`: an unregistered name stops
      before any download; otherwise the model is fetched at the device's
      precision and saved under `dir / name`. */
  function DownloadDiffuser(name: string, registry: Registry, dir: Path, cuda: bool,
                            fetch: Call, save: Call): (r: Report)
    ensures !Registered(registry, name) <==> r == UnknownName(name)
    ensures Fetched(r) ==> Registered(registry, name)
    ensures r.Saved? <==> Registered(registry, name) && fetch.Returns? && save.Returns?
    ensures r.Saved? ==> r.path == dir + [name] && r.modelId == Find(registry, name).modelId &&
                         r.precision == PrecisionFor(cuda)
  {
    if !Registered(registry, name) then UnknownName(name)
    else
      var entry := Find(registry, name);
      var precision := PrecisionFor(cuda);
      if fetch.Raises? then FetchFailed(entry.modelId, precision)
      else if save.Raises? then SaveFailed(entry.modelId, dir + [name])
      else Saved(entry.modelId, precision, dir + [name])
  }

  /** `ModelDownloader._download_upscaler`: never downloads. */
  function DownloadUpscaler(name: string): (r: Report)
    ensures !Fetched(r)
    ensures r.UnknownName? <==> !Registered(AvailableUpscalers, name)
  {
    if !Registered(AvailableUpscalers, name) then UnknownName(name)
    else UpscalerNotImplemented(name)
  }

  /** `ModelDownloader.download_model`. */
  function DownloadModel(name: string, modelType: string := "model", cuda: bool, fetch: Call, save: Call): (r: Report)
    ensures r.UnsupportedType? <==> RouteOf(modelType).None?
    ensures Fetched(r) ==> modelType in {"model", "vae", "controlnet"}
  {
    match RouteOf(modelType)
    case None => UnsupportedType(modelType)
    case Some(Upscalers) => DownloadUpscaler(name)
    case Some(Diffusers(registry, dir)) => DownloadDiffuser(name, registry, dir, cuda, fetch, save)
  }

  /** The three diffuser types go to their own registry and directory; a saved
      model lies at that directory / name. */
  lemma DownloadDispatches(name: string, modelType: string, cuda: bool, fetch: Call, save: Call)
    requires modelType in {"model", "vae", "controlnet"}
    ensures var route := RouteOf(modelType).value;
      DownloadModel(name, modelType, cuda, fetch, save) ==
        DownloadDiffuser(name, route.registry, route.dir, cuda, fetch, save)
    ensures var r := DownloadModel(name, modelType, cuda, fetch, save);
      r.Saved? ==> r.path == (if modelType == "model" then ModelsDir
                              else if modelType == "vae" then VaesDir
                              else ControlNetsDir) + [name]
  {
  }

  /** Every directory a download is saved under was created when the script was
      loaded. */
  lemma SavedDirectoryExists(name: string, modelType: string, cuda: bool, fetch: Call, save: Call)
    ensures var r := DownloadModel(name, modelType, cuda, fetch, save);
      (r.Saved? || r.SaveFailed?) ==> |r.path| == 2 && r.path[..1] in CreatedOnLoad && r.path[1] == name
  {
  }

  /** An unregistered name downloads nothing, whatever the foreign calls would do. */
  lemma UnknownNameDownloadsNothing(name: string, modelType: string, cuda: bool, fetch: Call, save: Call)
    requires RouteOf(modelType).Some?
    requires RouteOf(modelType).value.Diffusers? ==> !Registered(RouteOf(modelType).value.registry, name)
    ensures !Fetched(DownloadModel(name, modelType, cuda, fetch, save))
  {
  }

  /** The upscaler route never downloads, for known and unknown names alike. */
  lemma UpscalerNeverDownloads(name: string, cuda: bool, fetch: Call, save: Call)
    ensures var r := DownloadModel(name, "upscaler", cuda, fetch, save);
      !Fetched(r) && (r.UpscalerNotImplemented? <==> Registered(AvailableUpscalers, name))
  {
  }

  // ---------------------------------------------------------------------------
  // Listing

  /** One section of `list_available_models`: the type that selects it, its
      heading, and its registry. */
  datatype Section = Section(modelType: string, heading: string, entries: Registry)

  const Sections: seq<Section> := [
    Section("model", "MODELOS DIFFUSERS:", AvailableModels),
    Section("vae", "VAEs:", AvailableVaes),
    Section("controlnet", "CONTROLNETS:", AvailableControlNets),
    Section("upscaler", "UPSCALERS:", AvailableUpscalers)
  ]

  predicate Shown(modelType: string, s: Section) {
    modelType == "all" || modelType == s.modelType
  }

  /** The sections among `sections` that `modelType` selects, in order. */
  function Select(modelType: string, sections: seq<Section>): (r: seq<Section>)
    ensures |r| <= |sections|
    ensures forall s :: s in r <==> s in sections && Shown(modelType, s)
    ensures (forall s | s in sections :: Shown(modelType, s)) ==> r == sections
    ensures (forall s | s in sections :: !Shown(modelType, s)) ==> r == []
  {
    if |sections| == 0 then []
    else
      var rest := Select(modelType, sections[1..]);
      assert forall s :: s in sections <==> s == sections[0] || s in sections[1..];
      if Shown(modelType, sections[0]) then [sections[0]] + rest else rest
  }

  /** `ModelDownloader.list_available_models`. */
  function ListAvailableModels(modelType: string := "all"): (r: seq<Section>)
    ensures forall s :: s in r <==> s in Sections && Shown(modelType, s)
  {
    Select(modelType, Sections)
  }

  /** "all" lists every section in order; a section's own type lists it alone;
      any other type lists nothing. */
  lemma ListingSelects(modelType: string)
    ensures ListAvailableModels("all") == Sections
    ensures modelType in {"model", "vae", "controlnet", "upscaler"} ==>
      exists i :: 0 <= i < |Sections| && ListAvailableModels(modelType) == [Sections[i]] &&
                  Sections[i].modelType == modelType
    ensures modelType !in {"all", "model", "vae", "controlnet", "upscaler"} ==> ListAvailableModels(modelType) == []
  {
    if modelType in {"model", "vae", "controlnet", "upscaler"} {
      var i := if modelType == "model" then 0 else if modelType == "vae" then 1
               else if modelType == "controlnet" then 2 else 3;
      SelectOnly(modelType, Sections, i);
    }
  }

  /** When a single section is selected, the selection is that section alone. */
  lemma {:induction false} SelectOnly(modelType: string, sections: seq<Section>, i: nat)
    requires i < |sections| && Shown(modelType, sections[i])
    requires forall j :: 0 <= j < |sections| && j != i ==> !Shown(modelType, sections[j])
    ensures Select(modelType, sections) == [sections[i]]
  {
    if i > 0 {
      assert forall j :: 0 <= j < |sections| - 1 && j != i - 1 ==> sections[1..][j] == sections[j + 1];
      SelectOnly(modelType, sections[1..], i - 1);
    } else {
      assert forall s | s in sections[1..] :: !Shown(modelType, s);
    }
  }

  // ---------------------------------------------------------------------------
  // Command line

  const Commands: seq<string> := ["download", "list", "list-downloaded"]
  const TypeChoices: seq<string> := ["model", "vae", "controlnet", "upscaler", "lora", "embedding"]
  const DefaultType := "model"

  datatype Args = Args(command: string, model: Option<string>, modelType: string)

  /** argparse's rejection of a value outside `choices` (it exits with status 2). */
  datatype UsageError = InvalidCommand(command: string) | InvalidType(modelType: string)

  /** The `argparse` declaration of `main`. */
  function ParseArgs(command: string, model: Option<string>, modelType: Option<string>): (r: Result<Args, UsageError>)
    ensures r.Ok? <==> command in Commands && (modelType.None? || modelType.value in TypeChoices)
    ensures r.Ok? ==> r.value == Args(command, model, if modelType.Some? then modelType.value else DefaultType)
  {
    if command !in Commands then Err(InvalidCommand(command))
    else if modelType.Some? && modelType.value !in TypeChoices then Err(InvalidType(modelType.value))
    else Ok(Args(command, model, if modelType.Some? then modelType.value else DefaultType))
  }

  /** What `main` does with its parsed arguments. */
  datatype Action =
    | MissingModel                   // "download" without a (non-empty) --model
    | Downloaded(report: Report)
    | Listed(sections: seq<Section>)
    | ListedDownloaded               // the directory scan, outside this model
    | NoAction

  /** `main`: "download" needs a model name; "list" maps the type "model" (the
      default) to "all". */
  function Main(args: Args, cuda: bool, fetch: Call, save: Call): (a: Action)
    ensures args.command == "download" && (args.model.None? || args.model.value == "") ==> a == MissingModel
    ensures a.Downloaded? ==> args.command == "download" && args.model.Some? && args.model.value != ""
    ensures args.command == "download" && args.model.Some? && args.model.value != "" ==>
      a == Downloaded(DownloadModel(args.model.value, args.modelType, cuda, fetch, save))
    ensures args.command == "list" ==>
      a == Listed(ListAvailableModels(if args.modelType == "model" then "all" else args.modelType))
    ensures args.command == "list-downloaded" ==> a == ListedDownloaded
  {
    if args.command == "download" then
      if args.model.None? || args.model.value == "" then MissingModel
      else Downloaded(DownloadModel(args.model.value, args.modelType, cuda, fetch, save))
    else if args.command == "list" then
      Listed(ListAvailableModels(if args.modelType != "model" then args.modelType else "all"))
    else if args.command == "list-downloaded" then ListedDownloaded
    else NoAction
  }

  /** "lora" and "embedding" pass the command line but reach the unsupported
      branch: nothing is downloaded. */
  lemma CliTypesWithoutRoute(name: string, modelType: string, cuda: bool, fetch: Call, save: Call)
    requires modelType in {"lora", "embedding"}
    ensures ParseArgs("download", Some(name), Some(modelType)).Ok?
    ensures name != "" ==>
      Main(ParseArgs("download", Some(name), Some(modelType)).value, cuda, fetch, save) ==
        Downloaded(UnsupportedType(modelType))
  {
  }

  /** Every download the command line accepts with a model name reaches
      `download_model` with the parsed type ("model" by default), and only
      "lora" and "embedding" end in the unsupported branch. */
  lemma ParsedDownloadReachesDownloader(name: string, modelType: Option<string>, cuda: bool, fetch: Call, save: Call)
    requires name != ""
    requires ParseArgs("download", Some(name), modelType).Ok?
    ensures var t := if modelType.Some? then modelType.value else "model";
      var a := Main(ParseArgs("download", Some(name), modelType).value, cuda, fetch, save);
      && a == Downloaded(DownloadModel(name, t, cuda, fetch, save))
      && (a.report.UnsupportedType? <==> t in {"lora", "embedding"})
  {
  }

  /** `list` with the default type shows every section, so the command line
      cannot list the diffuser models alone. */
  lemma ListDefaultShowsAll(cuda: bool, fetch: Call, save: Call)
    ensures Main(ParseArgs("list", None, None).value, cuda, fetch, save) == Listed(Sections)
    ensures Main(ParseArgs("list", None, Some("model")).value, cuda, fetch, save) == Listed(Sections)
  {
    ListingSelects("all");
  }
}

/** The ControlNet table of the enhancement stages and the download script's
    ControlNet registry name the same repositories. */
module RegistryAgreement {
  import Enhancement
  import DownloadModels

  /** Each ControlNet the script can download is a type the enhancement stage
      knows, under the same repository, and so is not rejected by it. */
  lemma ControlNetRegistriesAgree()
    ensures forall e | e in DownloadModels.AvailableControlNets ::
      e.name in Enhancement.ControlNetTypes && Enhancement.ControlNetTypes[e.name] == e.modelId &&
      Enhancement.LoadControlNet(e.name).1 == Enhancement.NotImplemented(e.modelId)
  {
  }
}

=== FILE: enhancement.dfy ===
/** The best-effort enhancement stages: LoRA adapters, ControlNet lookup, the
    upscaler, negative embeddings, and the letterboxing of image-to-image and
    inpainting inputs. Every stage catches its own failures; none raises. */
module Enhancement {
  import opened Wrappers
  import opened Foreign
  import opened Imaging

  // ---------------------------------------------------------------------------
  // Pipelines and LoRA adapters

  /** A low-rank adapter attached to a pipeline, with the weight it is applied at. */
  datatype Adapter = Adapter(locator: string, weight: real)

  /** The part of a diffusers pipeline the stages touch: whether it has the
      `load_lora_weights` and `unload_lora_weights` methods, and the adapters
      currently attached to it. */
  datatype Pipeline = Pipeline(canLoadLora: bool, canUnloadLora: bool, adapters: seq<Adapter>)

  /** How a best-effort stage ended. */
  datatype Stage = Applied | Skipped(reason: SkipReason)

  datatype SkipReason =
    | MissingMethod      // the pipeline lacks the method (Python's AttributeError)
    | CallRaised         // the foreign call raised
    | UnknownKey(key: string)

  const DefaultLoraScale: real := 0.75

  /** The weight diffusers gives an adapter loaded without an explicit scale. */
  const DiffusersDefaultWeight: real := 1.0

  /** Whether a locator is remote (`lora_path.startswith("http")`); both branches
      of the source issue the same call. */
  predicate IsRemote(locator: string) {
    |locator| >= 4 && locator[..4] == "http"
  }

  /** Loads the adapter at `locator` through `pipe.load_lora_weights(locator)`, with
      the adapter's weight set by `weight`; a missing method or a raising call
      leaves the pipeline as it was. */
  function AttachLora(pipe: Pipeline, locator: string, weight: real, load: Call): (r: (Pipeline, Stage))
    ensures r.0.canLoadLora == pipe.canLoadLora && r.0.canUnloadLora == pipe.canUnloadLora
    ensures r.1.Applied? <==> pipe.canLoadLora && load.Returns?
    ensures r.1.Applied? ==> r.0.adapters == pipe.adapters + [Adapter(locator, weight)]
    ensures !r.1.Applied? ==> r.0 == pipe
  {
    if !pipe.canLoadLora then (pipe, Skipped(MissingMethod))
    else if IsRemote(locator) then
      if load.Raises? then (pipe, Skipped(CallRaised))
      else (pipe.(adapters := pipe.adapters + [Adapter(locator, weight)]), Applied)
    else
      if load.Raises? then (pipe, Skipped(CallRaised))
      else (pipe.(adapters := pipe.adapters + [Adapter(locator, weight)]), Applied)
  }

  /** `LoRAManager.load_lora` as written: `scale` is accepted and never used, so the
      adapter is applied at diffusers' default weight. */
  function LoadLora(pipe: Pipeline, locator: string, scale: real := DefaultLoraScale, load: Call): (r: (Pipeline, Stage))
    ensures r.0.canLoadLora == pipe.canLoadLora && r.0.canUnloadLora == pipe.canUnloadLora
    ensures r.1.Applied? <==> pipe.canLoadLora && load.Returns?
    ensures r.1.Applied? ==> r.0.adapters == pipe.adapters + [Adapter(locator, DiffusersDefaultWeight)]
    ensures !r.1.Applied? ==> r.0 == pipe
  {
    AttachLora(pipe, locator, DiffusersDefaultWeight, load)
  }

  /** The scale a caller passes has no effect on the pipeline: a request for the
      default 0.75 attaches the adapter at weight 1.0. */
  lemma LoadLoraIgnoresScale(pipe: Pipeline, locator: string, s1: real, s2: real, load: Call)
    ensures LoadLora(pipe, locator, s1, load) == LoadLora(pipe, locator, s2, load)
    ensures pipe.canLoadLora && load.Returns? ==>
      Last(LoadLora(pipe, locator, DefaultLoraScale, load).0.adapters).weight != DefaultLoraScale
  {
  }

  /** `LoRAManager.load_lora` as its signature intends: the adapter is applied at
      the requested scale. */
  function LoadLoraScaled(pipe: Pipeline, locator: string, scale: real, load: Call): (r: (Pipeline, Stage))
    ensures r.0.canLoadLora == pipe.canLoadLora && r.0.canUnloadLora == pipe.canUnloadLora
    ensures r.1.Applied? <==> pipe.canLoadLora && load.Returns?
    ensures r.1.Applied? ==> |r.0.adapters| == |pipe.adapters| + 1
    ensures r.1.Applied? ==> r.0.adapters[..|pipe.adapters|] == pipe.adapters
    ensures r.1.Applied? ==> Last(r.0.adapters) == Adapter(locator, scale)
    ensures !r.1.Applied? ==> r.0 == pipe
  {
    AttachLora(pipe, locator, scale, load)
  }

  /** The load as written is the corrected load at diffusers' default weight, so
      what is proved of the corrected load at that weight holds of it. */
  lemma LoadLoraIsScaledAtDefaultWeight(pipe: Pipeline, locator: string, scale: real, load: Call)
    ensures LoadLora(pipe, locator, scale, load) == LoadLoraScaled(pipe, locator, DiffusersDefaultWeight, load)
  {
  }

  /** Remote and local locators are loaded by the same call with the same effect. */
  lemma LoadLoraRemoteLikeLocal(pipe: Pipeline, remote: string, local: string, scale: real, load: Call)
    requires IsRemote(remote) && !IsRemote(local)
    ensures LoadLoraScaled(pipe, remote, scale, load).1 == LoadLoraScaled(pipe, local, scale, load).1
    ensures LoadLoraScaled(pipe, remote, scale, load).0.(adapters := []) ==
            LoadLoraScaled(pipe, local, scale, load).0.(adapters := [])
  {
  }

  /** `LoRAManager.unload_lora`: calls `pipe.unload_lora_weights()` only when the
      pipeline has that method; a raising call is swallowed. */
  function UnloadLora(pipe: Pipeline, unload: Call): (r: (Pipeline, Stage))
    ensures r.0.canLoadLora == pipe.canLoadLora && r.0.canUnloadLora == pipe.canUnloadLora
    ensures !pipe.canUnloadLora ==> r.0 == pipe
    ensures r.1.Applied? <==> pipe.canUnloadLora && unload.Returns?
    ensures r.1.Applied? ==> r.0.adapters == []
    ensures !r.1.Applied? ==> r.0 == pipe
  {
    if !pipe.canUnloadLora then (pipe, Skipped(MissingMethod))
    else if unload.Raises? then (pipe, Skipped(CallRaised))
    else (pipe.(adapters := []), Applied)
  }

  /** Loading an adapter and then unloading it leaves a pipeline that had no
      adapters exactly as it was, whatever became of the load. */
  lemma LoraTeardownLeavesNoResidue(pipe: Pipeline, locator: string, scale: real, load: Call)
    requires pipe.canUnloadLora && pipe.adapters == []
    ensures UnloadLora(LoadLoraScaled(pipe, locator, scale, load).0, Returns).0 == pipe
  {
  }

  // ---------------------------------------------------------------------------
  // ControlNet

  /** `ControlNetManager.CONTROLNET_TYPES`. */
  const ControlNetTypes: map<string, string> := map[
    "openpose" := "lllyasviel/control_v11p_openpose",
    "depth" := "lllyasviel/control_v11f1p_sd15_depth",
    "canny" := "lllyasviel/control_v11p_canny",
    "softedge" := "lllyasviel/control_v11p_softedge",
    "mlsd" := "lllyasviel/control_v11p_mlsd",
    "scribble" := "lllyasviel/control_v11p_scribble"
  ]

  /** A loaded ControlNet model; the source never constructs one. */
  datatype ControlNet = ControlNet(repository: string)

  datatype ControlNetStatus =
    | NotImplemented(repository: string)  // a known type: loading is left unimplemented
    | Unsupported(kind: string)           // the ValueError raised and caught inside

  /** `ControlNetManager.load_controlnet`: returns None for every type; an unknown
      type takes the caught-exception path. */
  function LoadControlNet(kind: string): (r: (Option<ControlNet>, ControlNetStatus))
    ensures r.0 == None
    ensures r.1.Unsupported? <==> kind !in ControlNetTypes
    ensures r.1.NotImplemented? ==> r.1.repository == ControlNetTypes[kind]
  {
    if kind !in ControlNetTypes then (None, Unsupported(kind))
    else (None, NotImplemented(ControlNetTypes[kind]))
  }

  // ---------------------------------------------------------------------------
  // Upscaler

  /** `Upscaler.upscale`: factors 2 and 4 resize both sides by the factor; any other
      factor, or a resize that raises, gives back the input image. */
  function Upscale(image: Picture, factor: int := 4, resize: Call): (r: Picture)
    ensures (factor == 2 || factor == 4) && resize.Returns? ==>
      r.width == image.width * factor && r.height == image.height * factor &&
      r.content == Resampled(image)
    ensures !(factor == 2 || factor == 4) || resize.Raises? ==> r == image
  {
    if factor != 2 && factor != 4 then image
    else if resize.Raises? then image
    else Picture(image.width * factor, image.height * factor, Resampled(image))
  }

  /** The upscaler changes the image exactly when the factor is supported and the
      resize returns. */
  lemma UpscaleChangesIffApplied(image: Picture, factor: int, resize: Call)
    ensures Upscale(image, factor, resize) != image <==> (factor == 2 || factor == 4) && resize.Returns?
  {
    var r := Upscale(image, factor, resize);
    if (factor == 2 || factor == 4) && resize.Returns? {
      assert r.width > image.width;
    }
  }

  // ---------------------------------------------------------------------------
  // Negative embeddings

  /** `NegativeEmbedding.EMBEDDING_PATHS`. */
  const EmbeddingPaths: map<string, string> := map[
    "easynegative" := "embeddings/EasyNegative",
    "bad_anatomy" := "embeddings/BadHands",
    "bad_quality" := "embeddings/BadDream"
  ]

  datatype EmbeddingStatus = Found(path: string) | NotFound(name: string)

  /** `NegativeEmbedding.load_embedding`: resolves a known name to its path and
      only warns about an unknown one; the pipeline is never touched. */
  function LoadEmbedding(pipe: Pipeline, name: string): (r: (Pipeline, EmbeddingStatus))
    ensures r.0 == pipe
    ensures r.1.Found? <==> name in EmbeddingPaths
    ensures r.1.Found? ==> r.1.path == EmbeddingPaths[name]
    ensures r.1.NotFound? ==> r.1.name == name
  {
    if name in EmbeddingPaths then (pipe, Found(EmbeddingPaths[name]))
    else (pipe, NotFound(name))
  }

  /** Since loading an embedding leaves the pipeline alone, it may come before or
      after a LoRA load with the same result. */
  lemma EmbeddingCommutesWithLora(pipe: Pipeline, name: string, locator: string, scale: real, load: Call)
    ensures LoadEmbedding(LoadLoraScaled(pipe, locator, scale, load).0, name).0 ==
            LoadLoraScaled(LoadEmbedding(pipe, name).0, locator, scale, load).0
  {
  }

  // ---------------------------------------------------------------------------
  // Image-to-image and inpainting inputs

  /** The grey `(127, 127, 127)` around an image-to-image input. */
  const PadGrey := Rgb(127, 127, 127)

  /** Mask value 0, black: a masked pixel the inpainter keeps. */
  const MaskKeep := Luma(0)

  /** `Image2ImageProcessor.prepare_image`: the image's thumbnail centred on a
      `width` x `height` grey canvas. When `thumbnail` raises, the image as it
      was; when only `Image.new` raises (it rejects a negative side), the image
      as `thumbnail` left it, since that call resizes the image in place. */
  function PrepareImage(image: Picture, width: int := 512, height: int := 512): (r: Picture)
    ensures width > 0 && height > 0 ==>
      r.width == width && r.height == height &&
      r.content.Letterbox? && r.content.background == PadGrey
    ensures width > 0 && height < 0 ==>
      Thumbnail(image, width, height) == Some(r) && r.width == width &&
      (r == image || r.content == Resampled(image))
    ensures width <= 0 || height == 0 ==> r == image
  {
    match Thumbnail(image, width, height)
    case None => image
    case Some(thumb) =>
      if width < 0 || height < 0 then thumb
      else Centre(width, height, PadGrey, thumb)
  }

  /** A negative height does not stop `thumbnail`: a 100 x 50 image asked for
      (512, -1) comes back resampled to 512 x 256, larger than it was, and no
      canvas is built. */
  lemma PrepareImageNegativeHeightEnlarges(image: Picture)
    requires image.width == 100 && image.height == 50
    ensures var r := PrepareImage(image, 512, -1);
      r.width == 512 && r.height == 256 && r.content == Resampled(image)
  {
  }

  /** On success the canvas shows the image's thumbnail inside a centred
      rectangle that lies within the canvas, and grey everywhere else. */
  lemma PrepareImageLetterboxes(image: Picture, width: int, height: int)
    requires width > 0 && height > 0
    ensures var r := PrepareImage(image, width, height);
      var thumb := Thumbnail(image, width, height).value;
      && r.content.inner == thumb
      && r.content.left == (width - thumb.width) / 2
      && r.content.top == (height - thumb.height) / 2
      && 0 <= r.content.left && r.content.left + thumb.width <= width
      && 0 <= r.content.top && r.content.top + thumb.height <= height
      && (forall x, y | InBounds(r, x, y) ::
            PixelAt(r, x, y) ==
              if Covers(thumb, r.content.left, r.content.top, x, y)
              then PixelAt(thumb, x - r.content.left, y - r.content.top)
              else Solid(PadGrey))
  {
    CentrePixels(width, height, PadGrey, Thumbnail(image, width, height).value);
  }

  /** Preparing an already prepared image again pastes it unshrunk at offset
      (0, 0): every pixel stays what it was. */
  lemma PrepareImageStable(image: Picture, width: int, height: int)
    requires width > 0 && height > 0
    ensures var once := PrepareImage(image, width, height);
      var twice := PrepareImage(once, width, height);
      twice.width == once.width && twice.height == once.height &&
      forall x, y | InBounds(once, x, y) :: PixelAt(twice, x, y) == PixelAt(once, x, y)
  {
    var once := PrepareImage(image, width, height);
    assert Thumbnail(once, width, height) == Some(once);
    var twice := PrepareImage(once, width, height);
    assert twice == Picture(width, height, Letterbox(PadGrey, once, 0, 0));
    forall x, y | InBounds(once, x, y)
      ensures PixelAt(twice, x, y) == PixelAt(once, x, y)
    {
      assert Covers(once, 0, 0, x, y);
    }
  }

  /** `InpaintingProcessor.prepare_inpaint`: the prepared image, and the mask's
      thumbnail centred on a black (keep) canvas of the same size; when Pillow
      raises on the mask, the prepared image and no mask. */
  function PrepareInpaint(image: Picture, mask: Picture, width: int := 512, height: int := 512): (r: (Picture, Option<Picture>))
    ensures r.0 == PrepareImage(image, width, height)
    ensures r.1.Some? <==> width > 0 && height > 0
    ensures r.1.Some? ==>
      r.1.value.width == r.0.width == width && r.1.value.height == r.0.height == height &&
      r.1.value.content.Letterbox? && r.1.value.content.background == MaskKeep
    ensures r.1.Some? ==> r.1.value.content.inner == Thumbnail(mask, width, height).value
    ensures r.1.None? ==> r.0 == image || r.0.content == Resampled(image)
  {
    var prepared := PrepareImage(image, width, height);
    match Thumbnail(mask, width, height)
    case None => (prepared, None)
    case Some(thumb) =>
      if width < 0 || height < 0 then (prepared, None)
      else (prepared, Some(Centre(width, height, MaskKeep, thumb)))
  }

  /** The mask canvas holds the mask's thumbnail at the floor-division offsets;
      its padded border is never inpainted, and a mask of the image's size is
      pasted over exactly the rectangle the image is pasted over. */
  lemma PrepareInpaintAligns(image: Picture, mask: Picture, width: int, height: int)
    requires width > 0 && height > 0
    ensures var (img, m) := PrepareInpaint(image, mask, width, height);
      var thumb := Thumbnail(mask, width, height).value;
      && m.value.content.inner == thumb
      && m.value.content.left == (width - thumb.width) / 2
      && m.value.content.top == (height - thumb.height) / 2
      && (forall x, y | InBounds(m.value, x, y) &&
            !Covers(m.value.content.inner, m.value.content.left, m.value.content.top, x, y) ::
            PixelAt(m.value, x, y) == Solid(MaskKeep))
      && (image.width == mask.width && image.height == mask.height ==>
            img.content.left == m.value.content.left && img.content.top == m.value.content.top &&
            img.content.inner.width == m.value.content.inner.width &&
            img.content.inner.height == m.value.content.inner.height)
  {
    CentrePixels(width, height, MaskKeep, Thumbnail(mask, width, height).value);
  }
}

=== FILE: imaging.dfy ===
/** Raster images reduced to their dimensions and to where their pixels come
    from, with Pillow's `Image.thumbnail` sizing rule and the centred paste
    that the enhancement processors build on. */
module Imaging {
  import opened Wrappers

  /** A side of a decoded image: always at least one pixel. */
  type Dim = n: int | 1 <= n witness 1

  datatype Size = Size(width: int, height: int)

  datatype Colour = Rgb(red: int, green: int, blue: int) | Luma(level: int)

  /** An image: its size and the provenance of its pixels. */
  datatype Picture = Picture(width: Dim, height: Dim, content: Content)

  datatype Content =
      /** pixels that come from outside the model (an upload, a sampler output) */
    | Original(id: nat)
      /** a Lanczos resampling of another picture to this picture's size */
    | Resampled(source: Picture)
      /** a canvas filled with `background` onto which `inner` is pasted with its
          top-left corner at (`left`, `top`) */
    | Letterbox(background: Colour, inner: Picture, left: int, top: int)

  /** What one pixel of a picture shows. */
  datatype Pixel = Solid(colour: Colour) | Sample(picture: Picture, x: int, y: int)

  predicate InBounds(p: Picture, x: int, y: int) {
    0 <= x < p.width && 0 <= y < p.height
  }

  /** Whether (x, y) of a canvas is covered by a picture pasted at (left, top). */
  predicate Covers(inner: Picture, left: int, top: int, x: int, y: int) {
    left <= x < left + inner.width && top <= y < top + inner.height
  }

  function PixelAt(p: Picture, x: int, y: int): Pixel
    requires InBounds(p, x, y)
    decreases p
  {
    match p.content
    case Letterbox(background, inner, left, top) =>
      if Covers(inner, left, top, x, y) then PixelAt(inner, x - left, y - top)
      else Solid(background)
    case _ => Sample(p, x, y)
  }

  /** Pillow's `round_aspect` for a new width num / den: the nearer of floor and
      ceiling by distance to num / den, and at least 1. Pillow compares float
      distances; in exact arithmetic a tie keeps the floor. */
  function NearestWidth(num: int, den: int): int
    requires num >= 0 && den > 0
  {
    var f := num / den;
    var pick := if 2 * (num % den) > den then f + 1 else f;
    if pick < 1 then 1 else pick
  }

  /** Pillow's `round_aspect` for a new height bw * h / w: the nearer of floor and
      ceiling by the distance of bw / n to the aspect w / h (a zero candidate
      counts as distance 0), and at least 1. Pillow compares float distances; in
      exact arithmetic a tie keeps the floor. */
  function NearestHeight(bw: int, w: int, h: int): int
    requires bw > 0 && w > 0 && h > 0
  {
    var f := bw * h / w;
    var rest := bw * h % w;
    var pick :=
      if f == 0 || rest == 0 then f
      else if (w - rest) * f < rest * (f + 1) then f + 1
      else f;
    if pick < 1 then 1 else pick
  }

  lemma CancelLe(a: int, b: int, k: int)
    requires k > 0 && a * k <= b * k
    ensures a <= b
  {
  }

  lemma CancelLt(a: int, b: int, k: int)
    requires k > 0 && a * k < b * k
    ensures a < b
  {
  }

  lemma MulLe(a: int, b: int, k: int)
    requires k >= 0 && a <= b
    ensures a * k <= b * k
  {
  }

  lemma MulLt(a: int, b: int, k: int)
    requires k > 0 && a < b
    ensures a * k < b * k
  {
  }

  /** A rounded width never exceeds a whole number `limit` that bounds num / den. */
  lemma NearestWidthWithin(num: int, den: int, limit: int)
    requires num >= 0 && den > 0 && limit >= 1
    requires num <= limit * den
    ensures 1 <= NearestWidth(num, den) <= limit
  {
    var f := num / den;
    assert f * den <= num;
    CancelLe(f, limit, den);
    if num % den > 0 {
      assert f * den < num;
      CancelLt(f, limit, den);
    }
  }

  /** A rounded height never exceeds a whole number `limit` that bounds bw * h / w. */
  lemma NearestHeightWithin(bw: int, w: int, h: int, limit: int)
    requires bw > 0 && w > 0 && h > 0 && limit >= 1
    requires bw * h <= limit * w
    ensures 1 <= NearestHeight(bw, w, h) <= limit
  {
    var f := bw * h / w;
    assert f * w <= bw * h;
    CancelLe(f, limit, w);
    if bw * h % w > 0 {
      assert f * w < bw * h;
      CancelLt(f, limit, w);
    }
  }

  /** The rounded width is less than one pixel from num / den, and unless it was
      raised to 1 it is the nearest whole number to num / den. */
  lemma NearestWidthClose(num: int, den: int)
    requires num > 0 && den > 0
    ensures var n := NearestWidth(num, den);
      -den < n * den - num < den &&
      (n == 1 || -den <= 2 * (n * den - num) <= den)
  {
    var f := num / den;
    var rest := num % den;
    assert num == f * den + rest;
    assert (f + 1) * den == f * den + den;
  }

  /** The rounded height is less than one pixel from bw * h / w. */
  lemma NearestHeightClose(bw: int, w: int, h: int)
    requires bw > 0 && w > 0 && h > 0
    ensures -w < NearestHeight(bw, w, h) * w - bw * h < w
  {
    var f := bw * h / w;
    var rest := bw * h % w;
    assert bw * h == f * w + rest;
    assert (f + 1) * w == f * w + w;
  }

  /** When the bound is at least as wide (relative to its height) as the image
      but the image does not fit, the bound's height is below the image's and the
      rounded width fits both the bound and the image. */
  lemma WideBoundFits(w: Dim, h: Dim, bw: int, bh: int)
    requires bw > 0 && bh > 0 && !(bw >= w && bh >= h)
    requires bw * h >= bh * w
    ensures bh < h
    ensures 1 <= NearestWidth(bh * w, h) <= w && NearestWidth(bh * w, h) <= bw
  {
    if bw < w {
      MulLt(bw, w, h);
      assert bh * w < h * w;
      CancelLt(bh, h, w);
    }
    MulLe(bh, h, w);
    NearestWidthWithin(bh * w, h, w);
    NearestWidthWithin(bh * w, h, bw);
  }

  /** When the bound is narrower (relative to its height) than the image, the
      bound's width is below the image's and the rounded height fits both the
      bound and the image. */
  lemma NarrowBoundFits(w: Dim, h: Dim, bw: int, bh: int)
    requires bw > 0 && bh > 0 && !(bw >= w && bh >= h)
    requires bw * h < bh * w
    ensures bw < w
    ensures 1 <= NearestHeight(bw, w, h) <= h && NearestHeight(bw, w, h) <= bh
  {
    if bh < h {
      MulLt(bh, h, w);
      assert bw * h < w * h;
      CancelLt(bw, w, h);
    }
    MulLe(bw, w, h);
    NearestHeightWithin(bw, w, h, h);
    NearestHeightWithin(bw, w, h, bh);
  }

  /** Whether Pillow keeps the bound's height: the bound's aspect `bw / bh` is at
      least the image's. A negative `bh` makes the bound's aspect negative, so
      the width is kept instead. */
  predicate KeepsHeight(w: Dim, h: Dim, bw: int, bh: int) {
    bh > 0 && bw * h >= bh * w
  }

  /** The size Pillow's `Image.thumbnail((bw, bh))` gives a w x h image, or None
      where Pillow raises. An image that fits is left alone. Otherwise a zero
      height divides by zero, and a width of zero or less ends in a resize to a
      side below 1; a negative height with a positive width does not raise: the
      width is kept and the height follows the aspect ratio, which may enlarge
      the image. */
  function ThumbnailSize(w: Dim, h: Dim, bw: int, bh: int): (r: Option<Size>)
    ensures r.None? <==> bw <= 0 || bh == 0
    ensures bw >= w && bh >= h ==> r == Some(Size(w, h))
    ensures r.Some? ==> r.value.width >= 1 && r.value.height >= 1
    ensures r.Some? && bh > 0 ==>
      r.value.width <= w && r.value.width <= bw && r.value.height <= h && r.value.height <= bh
    ensures r.Some? && !(bw >= w && bh >= h) && KeepsHeight(w, h, bw, bh) ==>
      && r.value.height == bh
      && -(h as int) < r.value.width * h - bh * w < h
      && (r.value.width == 1 || -(h as int) <= 2 * (r.value.width * h - bh * w) <= h)
    ensures r.Some? && !(bw >= w && bh >= h) && !KeepsHeight(w, h, bw, bh) ==>
      && r.value.width == bw
      && -(w as int) < r.value.height * w - bw * h < w
  {
    if bw >= w && bh >= h then Some(Size(w, h))
    else if bw <= 0 || bh == 0 then None
    else if KeepsHeight(w, h, bw, bh) then
      WideBoundFits(w, h, bw, bh);
      NearestWidthClose(bh * w, h);
      Some(Size(NearestWidth(bh * w, h), bh))
    else
      // the bound is narrower than the image, or its height is negative
      NearestHeightClose(bw, w, h);
      if bh > 0 then
        NarrowBoundFits(w, h, bw, bh);
        Some(Size(bw, NearestHeight(bw, w, h)))
      else
        Some(Size(bw, NearestHeight(bw, w, h)))
  }

  /** `image.thumbnail((bw, bh))`: the picture itself when its size does not
      change, otherwise its resampling to the thumbnail size; None where Pillow
      raises, which leaves the picture as it was. */
  function Thumbnail(p: Picture, bw: int, bh: int): (r: Option<Picture>)
    ensures r.None? <==> bw <= 0 || bh == 0
    ensures r.Some? ==> ThumbnailSize(p.width, p.height, bw, bh) == Some(Size(r.value.width, r.value.height))
    ensures r.Some? && bh > 0 ==> r.value.width <= bw && r.value.height <= bh
    ensures r.Some? && bh > 0 ==> r.value.width <= p.width && r.value.height <= p.height
    ensures r.Some? ==> r.value == p || r.value.content == Resampled(p)
    ensures bw >= p.width && bh >= p.height ==> r == Some(p)
  {
    match ThumbnailSize(p.width, p.height, bw, bh)
    case None => None
    case Some(size) =>
      if size == Size(p.width, p.height) then Some(p)
      else Some(Picture(size.width, size.height, Resampled(p)))
  }

  /** A thumbnail already fits its bounds, so taking it again changes nothing. */
  lemma ThumbnailIdempotent(p: Picture, bw: int, bh: int)
    requires bw > 0 && bh > 0
    ensures var t := Thumbnail(p, bw, bh).value;
      Thumbnail(t, bw, bh) == Some(t)
  {
  }

  /** Python's `(outer - inner) // 2`; for the positive divisor 2, Dafny's
      Euclidean division rounds the same way, toward negative infinity. */
  function CentreOffset(outer: int, inner: int): int {
    (outer - inner) / 2
  }

  /** `Image.new(mode, (w, h), background)` followed by `paste(inner, offset)` with
      the centring offsets both processors compute. */
  function Centre(w: Dim, h: Dim, background: Colour, inner: Picture): (r: Picture)
    requires inner.width <= w && inner.height <= h
    ensures r.width == w && r.height == h
    ensures r.content.Letterbox? && r.content.background == background && r.content.inner == inner
    ensures 0 <= r.content.left && r.content.left + inner.width <= w
    ensures 0 <= r.content.top && r.content.top + inner.height <= h
    ensures 0 <= (w - r.content.left - inner.width) - r.content.left <= 1
    ensures 0 <= (h - r.content.top - inner.height) - r.content.top <= 1
  {
    Picture(w, h, Letterbox(background, inner, CentreOffset(w, inner.width), CentreOffset(h, inner.height)))
  }

  /** Every pixel of a centred canvas shows the pasted picture inside the pasted
      rectangle and the background everywhere else. */
  lemma CentrePixels(w: Dim, h: Dim, background: Colour, inner: Picture)
    requires inner.width <= w && inner.height <= h
    ensures var r := Centre(w, h, background, inner);
      forall x, y | InBounds(r, x, y) ::
        PixelAt(r, x, y) ==
          if Covers(inner, r.content.left, r.content.top, x, y)
          then PixelAt(inner, x - r.content.left, y - r.content.top)
          else Solid(background)
  {
  }
}

=== FILE: json.dfy ===
/** JSON values as Python's `json` module decodes them, and the few dict/list operations
    the catalog client applies to them. */
module JsonValue {
  import opened Wrappers

  /** A decoded JSON document. An object keeps its members in document order,
      duplicates included; `null` is Python's `None`. */
  datatype Json =
    | Null
    | Bool(b: bool)
    | Int(i: int)
    | Float(f: real)
    | Str(s: string)
    | Arr(items: seq<Json>)
    | Obj(members: seq<(string, Json)>)

  /** The Python exceptions the modelled code lets escape: a wrongly shaped
      document raises AttributeError or TypeError where a dict or a list is
      expected, and a file that cannot be opened raises OSError. */
  datatype PyError = AttributeError | TypeError | OSError

  ghost predicate HasKey(members: seq<(string, Json)>, key: string) {
    exists i :: 0 <= i < |members| && members[i].0 == key
  }

  /** `dict.get(key, default)` on a decoded object: `json.loads` keeps the last
      member of a repeated key, so the lookup reads the members from the back. */
  function Lookup(members: seq<(string, Json)>, key: string, default: Json): (r: Json)
    ensures !HasKey(members, key) ==> r == default
    ensures HasKey(members, key) ==>
      exists i :: 0 <= i < |members| && members[i] == (key, r) &&
        forall j :: i < j < |members| ==> members[j].0 != key
  {
    if |members| == 0 then default
    else
      var last := |members| - 1;
      if members[last].0 == key then members[last].1
      else
        var r := Lookup(members[..last], key, default);
        assert forall i :: 0 <= i < last ==> members[..last][i] == members[i];
        r
  }

  /** `value.get(key, default)`: only a dict has `.get`; anything else raises. */
  function Get(value: Json, key: string, default: Json): (r: Result<Json, PyError>)
    ensures r.Ok? <==> value.Obj?
    ensures r.Err? ==> r.error == AttributeError
    ensures value.Obj? && !HasKey(value.members, key) ==> r == Ok(default)
    ensures value.Obj? ==> r == Ok(Lookup(value.members, key, default))
  {
    match value
    case Obj(members) => Ok(Lookup(members, key, default))
    case _ => Err(AttributeError)
  }

  /** The distinct keys of `members` not in `seen`, in order of first occurrence,
      as Python's iteration over a decoded dict yields them. */
  function KeysAfter(members: seq<(string, Json)>, seen: set<string>): (r: seq<Json>)
    ensures forall k :: 0 <= k < |r| ==> r[k].Str?
    ensures |r| <= |members|
    ensures |members| > 0 && members[0].0 !in seen ==> |r| > 0 && r[0] == Str(members[0].0)
  {
    if |members| == 0 then []
    else if members[0].0 in seen then KeysAfter(members[1..], seen)
    else [Str(members[0].0)] + KeysAfter(members[1..], seen + {members[0].0})
  }

  /** The elements Python's `for x in value` visits: a list's items, a string's
      characters, a dict's keys; numbers, booleans and `None` are not iterable. */
  function Iterate(value: Json): (r: Result<seq<Json>, PyError>)
    ensures r.Err? <==> value.Null? || value.Bool? || value.Int? || value.Float?
    ensures r.Err? ==> r.error == TypeError
    ensures value.Arr? ==> r == Ok(value.items)
    ensures value.Str? || value.Obj? ==> forall k :: 0 <= k < |r.value| ==> r.value[k].Str?
    ensures value.Str? ==> |r.value| == |value.s|
    ensures value.Obj? ==> (|r.value| == 0 <==> |value.members| == 0)
  {
    match value
    case Arr(items) => Ok(items)
    case Str(s) => Ok(seq(|s|, k requires 0 <= k < |s| => Str([s[k]])))
    case Obj(members) => Ok(KeysAfter(members, {}))
    case _ => Err(TypeError)
  }

  /** Python truthiness of a decoded value (`if not value`). */
  predicate Truthy(value: Json) {
    match value
    case Null => false
    case Bool(b) => b
    case Int(i) => i != 0
    case Float(f) => f != 0.0
    case Str(s) => s != ""
    case Arr(items) => items != []
    case Obj(members) => members != []
  }
}

=== FILE: wrappers.dfy ===
/** Failure-compatible wrappers shared by every module of the model. */
module Wrappers {

  /** An optional value; Python's `None` where a value may be absent. */
  datatype Option<+T> = None | Some(value: T)

  /** A value or the error that stopped its computation; usable with `:-`. */
  datatype Result<+T, +E> = Ok(value: T) | Err(error: E) {

    predicate IsFailure() {
      Err?
    }

    function PropagateFailure<U>(): Result<U, E>
      requires Err?
    {
      Err(error)
    }

    function Extract(): T
      requires Ok?
    {
      value
    }
  }

  /** The last element of a non-empty sequence (Python's `s[-1]`). */
  function Last<T>(s: seq<T>): T
    requires |s| > 0
  {
    s[|s| - 1]
  }
}

/** Calls into code outside the model (Pillow, diffusers, the file system). */
module Foreign {

  /** How an opaque foreign call ends: it returns normally or it raises an exception. */
  datatype Call = Returns | Raises
}
